=== FILE: README.md ===
# Log-redaction engine of the secrets provider, in Dafny

The Terraform provider for the remote secret store scrubs everything it writes
to its debug log: header sets, request URLs and request/response bodies. This
project models that redaction engine, plus the one piece of string logic in the
secret resource: the split of an import identifier `namespace/key`.

Go strings are byte strings, so text is modelled as `Bytes`, a sequence of
bytes (`ByteStrings.byte` is a `char` restricted to 0..255, so ASCII literals read as
strings). The preview window and the ellipsis are counted in bytes: the
ellipsis `…` is three bytes in UTF-8 and a truncated preview is 19 bytes long.

Modules follow the engine's parts:

- `ByteStrings`: byte strings, ASCII lower-casing, case-insensitive equality, and
  substring search (`Contains`) against its reference meaning (`Occurs`).
- `Classifier`: the 17-word sensitivity vocabulary and `IsSensitiveKey`.
- `Scalar`: the mask `****`, the 16-byte preview window and `TruncatePreview`.
- `Walker`: the dynamic value type of a loosely typed field map, `SafeValue`
  and the recursive `SafeFields`.
- `Headers`: `RedactHTTPHeaders` over a header multimap.
- `UrlQuery`: `containsFold`, the query rewrite and `RedactURLQuery`. The URL
  parser and the renderer are parameters; a failed parse is `None`.
- `JsonBody`: a JSON tree datatype, the walk `redactJSONNode` and
  `RedactJSONBytes`. The decoder and the encoder are parameters; a failure of
  either is `None`.
- `Pem`: the PEM-block pattern as a leftmost, shortest-body scanner and
  `RedactPEM`.
- `Chain`: `RedactBytesChain`, which runs JSON redaction, then PEM redaction,
  then the keyword scan that collapses the output to the mask.
- `ImportId`: the first-`/` split of an import identifier and the identifier
  built after a create or an update.

Every walk and scan has a partner: a fixpoint characterisation ("left alone
exactly when already redacted") from which idempotence follows, a reference
definition, or a round trip. The two byte-level adapters, `RedactURLQuery`
and `RedactJSONBytes`, are tied to their walks by their contracts. They are
idempotent only under a hypothesis on the parser and renderer they are given:
that parsing reads back what rendering wrote (`RedactURLQueryIdempotent`,
`RedactJSONBytesIdempotent`).

Where the byte-level code and a length claim in prose differ, this model
follows the code. A preview is strictly shorter than its input only when the
input is longer than 19 bytes. A 17- or 18-byte string grows to 19 bytes
(`Scalar.TruncatePreviewShortens`).

## Model

| member | source | states |
|---|---|---|
| Classifier.IsSensitiveKey | internal/utils/redaction.go:18-32 | a name is sensitive exactly when one of the 17 vocabulary words occurs in its lower-cased form |
| Classifier.MatchFrom | internal/utils/redaction.go:26-31 | the vocabulary loop with its early return answers true exactly when some word from the current index on occurs |
| ByteStrings.Contains | internal/utils/redaction.go:27 | the substring scan answers true exactly when the word occurs at some offset |
| Classifier.SensitiveIgnoresCase | internal/utils/redaction.go:24-25 | two names equal up to ASCII case are classified alike |
| Classifier.SensitiveIfKeyValueOrAuth | internal/utils/redaction.go:18-22 | any name containing `key`, `value` or `auth` in any case is sensitive |
| Classifier.EmptyNotSensitive | internal/utils/redaction.go:18-32 | the empty name is not sensitive |
| Classifier.NoLetterNotSensitive | internal/utils/redaction.go:18-32 | a name with no ASCII letter is never sensitive |
| Scalar.TruncatePreview | internal/utils/redaction.go:36-43 | strings of at most 16 bytes come back unchanged; longer ones become 19 bytes that keep the first 8 and last 8 bytes around the ellipsis; every result is a preview |
| Scalar.TruncatePreviewFixpoint | internal/utils/redaction.go:36-43 | a string is left unchanged exactly when it already has preview shape |
| Scalar.TruncatePreviewIdempotent | internal/utils/redaction.go:36-43 | previewing a preview changes nothing |
| Scalar.TruncatePreviewShortens | internal/utils/redaction.go:36-43 | the preview is shorter than its input exactly when the input exceeds 19 bytes |
| Scalar.MaskIsPreview | internal/utils/redaction.go:14-15 | the mask has preview shape and survives previewing |
| Walker.SafeValue | internal/utils/redaction.go:45-55 | a sensitive key yields exactly the mask whatever the value; otherwise a string is previewed and any other value returned unchanged |
| Walker.SafeValueIdempotent | internal/utils/redaction.go:45-55 | redacting a redacted value under the same key changes nothing |
| Walker.SafeFields | internal/utils/redaction.go:57-74 | the output has the input's key set at every depth; a nested map becomes its own walk (line 62), a string map becomes the field map of `SafeValue(kk, vv)` for each entry (line 66), and any other value becomes `SafeValue(k, v)` (line 70); at every depth, every string is masked or previewed, every value other than a map under a sensitive key is the mask, and every other value (number, boolean, nil, slice, struct) is kept as it was |
| Walker.SafeEntry | internal/utils/redaction.go:59-71 | a nested map becomes exactly its walk, even under a sensitive key; a string map becomes exactly the field map of its entries' scalar redactions; any other value goes through the scalar redactor |
| Walker.SafeStrMap | internal/utils/redaction.go:63-68 | a string-to-string map keeps its keys, each entry becomes the scalar redaction of its value under its own key, and the result is redacted |
| Walker.SafeFieldsFixpoint | internal/utils/redaction.go:57-74 | a field map is left unchanged exactly when it is already redacted at every depth |
| Walker.SafeFieldsIdempotent | internal/utils/redaction.go:57-74 | walking a walked map changes nothing |
| Headers.PreviewAll | internal/utils/redaction.go:83-87 | the value list keeps its length and order, each value is previewed, and every output value has preview shape |
| Headers.PreviewAllFixpoint | internal/utils/redaction.go:83-87 | a value list is left unchanged exactly when every value already has preview shape |
| Headers.RedactHTTPHeaders | internal/utils/redaction.go:76-90 | the same header names come out; a header for which `MaskedHeader` holds (sensitive name, or Authorization or Cookie in any case, as at line 79) maps to exactly the one-element mask list; any other keeps its values' count and order, each previewed |
| Headers.RedactHTTPHeadersFixpoint | internal/utils/redaction.go:76-90 | a header set is left unchanged exactly when masked headers hold only the mask and all others hold previews |
| Headers.RedactHTTPHeadersIdempotent | internal/utils/redaction.go:76-90 | redacting redacted headers changes nothing |
| Classifier.AuthorizationIsSensitive | internal/utils/redaction.go:18-32 | every spelling of Authorization is flagged by the vocabulary |
| Headers.AuthorizationCheckRedundant | internal/utils/redaction.go:79 | a header is masked exactly when its name is sensitive or is Cookie in some case: the explicit Authorization comparison never changes the outcome |
| Headers.CookieAlwaysMasked | internal/utils/redaction.go:79-81 | a Cookie header in any case is masked |
| UrlQuery.ContainsFold | internal/utils/redaction.go:109-116 | true exactly when some list entry equals the name up to ASCII case |
| UrlQuery.RedactQuery | internal/utils/redaction.go:97-104 | parameter names are preserved, each ends with exactly one value: the mask when `MaskedParam` holds (a sensitive name, or one in the caller's extra list up to case, as at line 99), else the preview of its first value |
| UrlQuery.RedactURLQuery | internal/utils/redaction.go:92-107 | an unparsable URL comes back unchanged; otherwise the URL is re-rendered with its other parts untouched and its query redacted |
| UrlQuery.RedactURLQueryIdempotent | internal/utils/redaction.go:92-107 | with a parser that reads back what the renderer wrote, redacting an already redacted URL changes nothing |
| UrlQuery.RedactQueryIdempotent | internal/utils/redaction.go:97-104 | redacting a redacted query changes nothing |
| UrlQuery.RedactQueryFixpoint | internal/utils/redaction.go:97-104 | a query is left unchanged exactly when every parameter holds one value that is the mask or a preview as its name demands |
| UrlQuery.ExtraKeyMasked | internal/utils/redaction.go:99-100 | a parameter named in the caller's extra list, in any case, is masked |
| JsonBody.RedactJSONNode | internal/utils/redaction.go:131-153 | object key sets and array lengths and order are preserved; the whole value under a sensitive key becomes the mask string; strings are previewed; numbers, booleans and null are unchanged; the result is fully redacted |
| JsonBody.RedactJSONNodeFixpoint | internal/utils/redaction.go:131-153 | a tree is left unchanged exactly when it is already fully redacted |
| JsonBody.RedactJSONNodeIdempotent | internal/utils/redaction.go:131-153 | redacting a redacted tree changes nothing |
| JsonBody.PlainUnchanged | internal/utils/redaction.go:131-153 | a document with no sensitive key and no string over 16 bytes comes back deep-equal |
| JsonBody.PlainIsRedacted | internal/utils/redaction.go:131-153 | such a plain document is already fully redacted |
| JsonBody.AuthorizationMemberMasked | internal/utils/redaction.go:133-139 | an object member named Authorization in any case has its whole value replaced by the mask string |
| JsonBody.RedactJSONBytes | internal/utils/redaction.go:118-129 | malformed input, or an encoding failure, returns the input bytes unchanged; otherwise the output is exactly the encoding of the redacted decoded tree; either way the output is the input or the encoding of a fully redacted tree |
| JsonBody.RedactJSONBytesIdempotent | internal/utils/redaction.go:118-129 | with a decoder that reads back what the encoder wrote, redacting already redacted bytes changes nothing |
| Pem.TagLen | internal/utils/redaction.go:155 | a tag is the maximal leading run of bytes other than '-' |
| Pem.ArmorShape | internal/utils/redaction.go:155 | an armor line recognised by `Armor` is the marker, a non-empty tag with no '-', and five dashes, and `Armor` returns its length |
| Pem.ArmorOf | internal/utils/redaction.go:155 | conversely, `Armor` recognises every marker, non-empty '-'-free tag and five dashes, whatever follows |
| Pem.FindEndEarliest | internal/utils/redaction.go:155 | `FindEnd` finds an END line exactly when one starts somewhere in the text, and the one it finds is the earliest: this is the lazy body |
| Pem.MatchBlockFound | internal/utils/redaction.go:155 | `MatchBlock` finds a block exactly when the text starts with a BEGIN line and an END line starts at least one body byte after it |
| Pem.MatchBlockShortest | internal/utils/redaction.go:155 | a block found by `MatchBlock` ends with the first END line after at least one body byte, so its body is the shortest possible |
| Pem.RedactPEM | internal/utils/redaction.go:155-159 | text with no `-----BEGIN ` comes back unchanged |
| Pem.PrefixKept | internal/utils/redaction.go:155-159 | text inside which no `-----BEGIN ` starts (`NoBeginWithin`) is copied verbatim, and the rest is redacted as if the text were absent |
| Pem.DashFreePrefixKept | internal/utils/redaction.go:155-159 | text with no '-' before the rest passes through verbatim |
| Pem.NoBeginStraddles | internal/utils/redaction.go:155 | when the rest starts with `-----BEGIN ` and the text before it holds none, no marker starts inside that text: the marker overlaps no shifted copy of itself |
| Pem.BlockMatches | internal/utils/redaction.go:155 | a complete block whose tags and body hold no '-' is matched whole, ending at its first END line |
| Pem.BlockMasked | internal/utils/redaction.go:157-159 | a complete block at the front whose tags and body hold no '-' becomes the mask, and scanning resumes just after it |
| Pem.BlockReplaced | internal/utils/redaction.go:155-159 | a complete block whose tags and body hold no '-', preceded by text holding no `-----BEGIN ` and followed by text holding no `-----BEGIN `, becomes the mask, and the text on both sides is untouched |
| Chain.RedactBytesChain | internal/utils/redaction.go:161-169 | the output is exactly the mask or the JSON-then-PEM redaction; the latter whenever `CarriesCredential` does not hold for it (no `authorization:` or `bearer ` in its lower-cased form, lines 164-165); the lower-cased output never contains `authorization:` or `bearer ` |
| Chain.PlainCredentialCollapses | internal/utils/redaction.go:161-169 | a non-JSON body without a BEGIN line that mentions a keyword in any case collapses to the mask |
| Chain.JsonOutputKept | internal/utils/redaction.go:161-169 | redacted JSON output without a BEGIN line or a keyword is returned as is |
| ImportId.FirstSlash | internal/provider/resource_secret.go:174-180 | the offset found holds the first '/', and there is none exactly when the identifier has no '/' |
| ImportId.SplitImportId | internal/provider/resource_secret.go:173-181 | with a '/', the identifier is namespace, '/', key, and the namespace holds no '/'; without one both parts are empty |
| ImportId.ImportIdRoundTrip | internal/provider/resource_secret.go:174-180 | splitting `FormatId(ns, key)`, the `ns + "/" + key` identifier that create and update store (lines 101 and 152), gives back `ns` and `key` when `ns` has no '/', even if `key` has some |
| ImportId.SlashInNamespaceSplitsEarly | internal/provider/resource_secret.go:174-179 | for every namespace whose first '/' is at offset i, splitting `FormatId(ns, key)` gives `ns[..i]` and the rest of the namespace, '/', and the key |

## Left out

- Classifier.IsSensitiveKey: lower-cases ASCII letters only. Go's Unicode lower-casing also maps a few non-ASCII letters to ASCII ones, such as the Kelvin sign to `k` and the dotted capital I to `i`. So Go flags some names that the model does not.
- UrlQuery.ContainsFold: compares up to ASCII case only. Go's Unicode case folding also matches such non-ASCII spellings.
- Headers.RedactHTTPHeaders: header names are compared up to ASCII case only, for the same reason.
- Chain.RedactBytesChain: the keyword scan lower-cases ASCII letters only. Go's Unicode lower-casing also maps, for instance, the dotted capital I to `i`, so Go collapses a body holding `AUTHORİZATION: x` to the mask and the model keeps it.
- UrlQuery.RedactURLQuery: URL parsing, query parsing and re-encoding are parameters, not models of the URL library. A real parse drops malformed query pairs and the encoder sorts names; both happen inside those parameters. Idempotence on URL text (`UrlQuery.RedactURLQueryIdempotent`) holds only for a parser that reads back what the renderer wrote; Go's parser and encoder are not shown to do so.
- JsonBody.RedactJSONBytes: the JSON decoder and encoder are parameters. Numbers are exact reals, not 64-bit floats. Idempotence on bytes (`JsonBody.RedactJSONBytesIdempotent`) holds only for a codec whose decoder reads back what its encoder wrote, and Go's does not. For example, `"aéééééééé"` is 17 bytes and its preview splits the fourth `é` after byte 8. `json.Marshal` then writes U+FFFD for the split byte, so the re-decoded string is 21 bytes and is truncated again.
- Pem.RedactPEM: the regular-expression engine is replaced by a hand-written scanner for its one pattern. The model does not prove that the output holds no further complete block.
- `RedactString` always returns the mask. It has no behaviour beyond the mask constant and is not modelled.
- `SafeKVString`: it iterates a map in unspecified order and encodes values as JSON, so its output is not deterministic.
- Array elements are rewritten in place in the source; the model builds a new array, which gives the same result.
- Conversions between strings and byte slices are the identity on bytes and are not modelled separately.
- The HTTP client (transport, TLS, file reads, logging calls) and the provider, data source and resource handlers are left out. Only the import split and the identifier format of the secret resource are modelled. The framework state writes and diagnostics around them are left out too.

=== FILE: bytes.dfy ===
/**
 Go strings are byte strings: `len`, indexing and slicing count bytes. A
 `Bytes` value holds one byte per element; the element type is `char`
 restricted to 0..255 so that ASCII literals can be written as strings.
 */
module ByteStrings {

  type byte = c: char | c as int < 0x100 witness '\0'
  type Bytes = seq<byte>

  /** Case folding of one byte as strings.ToLower does it for ASCII. */
  function LowerByte(c: byte): byte {
    if 'A' <= c <= 'Z' then (c as int + 32) as char else c
  }

  function Lower(s: Bytes): Bytes {
    seq(|s|, i requires 0 <= i < |s| => LowerByte(s[i]))
  }

  /** strings.EqualFold on ASCII: equal after lower-casing. */
  predicate EqualFold(a: Bytes, b: Bytes) {
    Lower(a) == Lower(b)
  }

  /** `sub` occurs in `s` starting at byte offset `i`. */
  predicate OccursAt(s: Bytes, sub: Bytes, i: nat) {
    i + |sub| <= |s| && s[i..i + |sub|] == sub
  }

  /** The reference meaning of strings.Contains. */
  ghost predicate Occurs(s: Bytes, sub: Bytes) {
    exists i: nat :: OccursAt(s, sub, i)
  }

  lemma OccursInTail(s: Bytes, sub: Bytes)
    requires |s| > 0
    ensures Occurs(s, sub) <==> OccursAt(s, sub, 0) || Occurs(s[1..], sub)
  {
    if Occurs(s[1..], sub) {
      var i: nat :| OccursAt(s[1..], sub, i);
      assert s[1..][i..i + |sub|] == s[i + 1..i + 1 + |sub|];
      assert OccursAt(s, sub, i + 1);
    }
    if Occurs(s, sub) && !OccursAt(s, sub, 0) {
      var i: nat :| OccursAt(s, sub, i);
      assert i > 0;
      assert s[1..][i - 1..i - 1 + |sub|] == s[i..i + |sub|];
      assert OccursAt(s[1..], sub, i - 1);
    }
  }

  /** strings.Contains as a left-to-right scan. */
  function Contains(s: Bytes, sub: Bytes): (r: bool)
    ensures r <==> Occurs(s, sub)
    decreases |s|
  {
    if |sub| > |s| then
      false
    else if s[..|sub|] == sub then
      assert OccursAt(s, sub, 0);
      true
    else
      OccursInTail(s, sub);
      Contains(s[1..], sub)
  }
}

=== FILE: chain.dfy ===
/** The chain sanitizer for bodies of unknown format. */
module Chain {
  import opened Wrappers
  import opened ByteStrings
  import opened Scalar
  import opened JsonBody
  import opened Pem

  /** The two keywords whose presence, in any case, collapses the output to the mask. */
  const AuthorizationLine: Bytes := "authorization:"
  const BearerWord: Bytes := "bearer "

  predicate CarriesCredential(t: Bytes) {
    Contains(Lower(t), AuthorizationLine) || Contains(Lower(t), BearerWord)
  }

  /** The structured part of the chain: JSON redaction, then PEM redaction. */
  function Structured(body: Bytes, unmarshal: Bytes -> Option<Json>, marshal: Json -> Option<Bytes>): Bytes {
    RedactPEM(RedactJSONBytes(body, unmarshal, marshal))
  }

  function RedactBytesChain(body: Bytes, unmarshal: Bytes -> Option<Json>, marshal: Json -> Option<Bytes>): (r: Bytes)
    ensures r == Mask || r == Structured(body, unmarshal, marshal)
    ensures !CarriesCredential(Structured(body, unmarshal, marshal)) ==> r == Structured(body, unmarshal, marshal)
    ensures !Occurs(Lower(r), AuthorizationLine) && !Occurs(Lower(r), BearerWord)
  {
    var out := Structured(body, unmarshal, marshal);
    if CarriesCredential(out) then Mask else out
  }

  /**
   A body that is neither JSON nor holds a BEGIN line reaches the keyword
   scan unchanged, so a credential keyword anywhere in it collapses the
   whole output to the mask.
   */
  lemma PlainCredentialCollapses(body: Bytes, unmarshal: Bytes -> Option<Json>, marshal: Json -> Option<Bytes>)
    requires unmarshal(body).None?
    requires !Occurs(body, BeginMarker)
    requires Occurs(Lower(body), AuthorizationLine) || Occurs(Lower(body), BearerWord)
    ensures RedactBytesChain(body, unmarshal, marshal) == Mask
  {
    assert Structured(body, unmarshal, marshal) == body;
  }

  /**
   When the redacted JSON output holds neither a BEGIN line nor a keyword,
   the chain returns exactly that output.
   */
  lemma JsonOutputKept(body: Bytes, unmarshal: Bytes -> Option<Json>, marshal: Json -> Option<Bytes>, out: Bytes)
    requires unmarshal(body).Some?
    requires marshal(RedactJSONNode(unmarshal(body).value)) == Some(out)
    requires !Occurs(out, BeginMarker)
    requires !Occurs(Lower(out), AuthorizationLine) && !Occurs(Lower(out), BearerWord)
    ensures RedactBytesChain(body, unmarshal, marshal) == out
  {
  }
}

=== FILE: classifier.dfy ===
/** The key classifier: is a field, header or parameter name sensitive? */
module Classifier {
  import opened ByteStrings

  /** The sensitivity vocabulary, in the order the classifier tries it. */
  const Vocabulary: seq<Bytes> := [
    "token", "secret", "password", "passwd", "apikey", "api_key", "authorization",
    "auth", "credential", "private", "key", "cert", "certificate", "pem",
    "jwt", "bearer", "value"
  ]

  /** The reference meaning: some vocabulary word occurs in the lower-cased name. */
  ghost predicate Sensitive(name: Bytes) {
    exists w :: w in Vocabulary && Occurs(Lower(name), w)
  }

  /** The classifier loop from vocabulary entry `from` on, stopping at the first hit. */
  function MatchFrom(lowered: Bytes, from: nat): (r: bool)
    requires from <= |Vocabulary|
    ensures r <==> exists j :: from <= j < |Vocabulary| && Occurs(lowered, Vocabulary[j])
    decreases |Vocabulary| - from
  {
    if from == |Vocabulary| then false
    else if Contains(lowered, Vocabulary[from]) then true
    else MatchFrom(lowered, from + 1)
  }

  function IsSensitiveKey(key: Bytes): (r: bool)
    ensures r <==> Sensitive(key)
  {
    var r := MatchFrom(Lower(key), 0);
    assert r <==> exists j :: 0 <= j < |Vocabulary| && Occurs(Lower(key), Vocabulary[j]);
    r
  }

  /** Classification ignores ASCII case. */
  lemma SensitiveIgnoresCase(a: Bytes, b: Bytes)
    requires EqualFold(a, b)
    ensures IsSensitiveKey(a) == IsSensitiveKey(b)
  {
  }

  /** Every name in which `key`, `value` or `auth` occurs, in any case, is sensitive. */
  lemma SensitiveIfKeyValueOrAuth(name: Bytes)
    requires Occurs(Lower(name), "key") || Occurs(Lower(name), "value") || Occurs(Lower(name), "auth")
    ensures IsSensitiveKey(name)
  {
    assert Vocabulary[10] == "key" && Vocabulary[16] == "value" && Vocabulary[7] == "auth";
  }

  /** Every spelling of Authorization is sensitive: its lower-cased form starts with `auth`. */
  lemma AuthorizationIsSensitive(name: Bytes)
    requires EqualFold(name, "Authorization")
    ensures IsSensitiveKey(name)
  {
    var l := Lower("Authorization");
    assert l[0] == 'a' && l[1] == 'u' && l[2] == 't' && l[3] == 'h';
    assert Lower(name)[..4] == l[..4] == Vocabulary[7];
    assert OccursAt(Lower(name), Vocabulary[7], 0);
  }

  /** The empty name is not sensitive: no vocabulary word is empty. */
  lemma EmptyNotSensitive()
    ensures !IsSensitiveKey([])
  {
    forall w | w in Vocabulary
      ensures !Occurs(Lower([]), w)
    {
      assert |w| > 0;
    }
  }

  /** A name with no ASCII letter is never sensitive: every vocabulary word starts with a letter. */
  lemma NoLetterNotSensitive(name: Bytes)
    requires forall i :: 0 <= i < |name| ==> !('a' <= LowerByte(name[i]) <= 'z')
    ensures !IsSensitiveKey(name)
  {
    forall w | w in Vocabulary
      ensures !Occurs(Lower(name), w)
    {
      assert |w| > 0 && 'a' <= w[0] <= 'z';
    }
  }
}

=== FILE: headers.dfy ===
/** The header redactor over a header multimap (name to ordered values). */
module Headers {
  import opened ByteStrings
  import opened Classifier
  import opened Scalar

  type Header = map<Bytes, seq<Bytes>>

  /** Headers whose whole value list is replaced by the mask. */
  predicate MaskedHeader(name: Bytes) {
    IsSensitiveKey(name) || EqualFold(name, "Authorization") || EqualFold(name, "Cookie")
  }

  function PreviewAll(vals: seq<Bytes>): (out: seq<Bytes>)
    ensures |out| == |vals|
    ensures forall i :: 0 <= i < |vals| ==> out[i] == TruncatePreview(vals[i])
    ensures forall i :: 0 <= i < |out| ==> IsPreview(out[i])
  {
    seq(|vals|, i requires 0 <= i < |vals| => TruncatePreview(vals[i]))
  }

  /** A value list is left unchanged exactly when every value already has preview shape. */
  lemma PreviewAllFixpoint(vals: seq<Bytes>)
    ensures PreviewAll(vals) == vals <==> forall i :: 0 <= i < |vals| ==> IsPreview(vals[i])
  {
    forall i | 0 <= i < |vals|
      ensures PreviewAll(vals)[i] == vals[i] <==> IsPreview(vals[i])
    {
      TruncatePreviewFixpoint(vals[i]);
    }
  }

  function RedactHTTPHeaders(h: Header): (safe: Header)
    ensures safe.Keys == h.Keys
    ensures forall k :: k in h && MaskedHeader(k) ==> safe[k] == [Mask]
    ensures forall k :: k in h && !MaskedHeader(k) ==>
      && |safe[k]| == |h[k]|
      && forall i :: 0 <= i < |h[k]| ==> safe[k][i] == TruncatePreview(h[k][i])
  {
    map k | k in h :: if MaskedHeader(k) then [Mask] else PreviewAll(h[k])
  }

  /** Already redacted headers: masked names hold just the mask, the others only previews. */
  predicate RedactedHeaders(h: Header) {
    forall k :: k in h ==>
      if MaskedHeader(k) then h[k] == [Mask]
      else forall i :: 0 <= i < |h[k]| ==> IsPreview(h[k][i])
  }

  /** A header set is left alone exactly when it is already redacted. */
  lemma RedactHTTPHeadersFixpoint(h: Header)
    ensures RedactHTTPHeaders(h) == h <==> RedactedHeaders(h)
  {
    var r := RedactHTTPHeaders(h);
    if RedactedHeaders(h) {
      forall k | k in h
        ensures r[k] == h[k]
      {
        if !MaskedHeader(k) {
          forall i | 0 <= i < |h[k]|
            ensures r[k][i] == h[k][i]
          {
            TruncatePreviewFixpoint(h[k][i]);
          }
        }
      }
    }
    if r == h {
      forall k | k in h && !MaskedHeader(k)
        ensures forall i :: 0 <= i < |h[k]| ==> IsPreview(h[k][i])
      {
        assert r[k] == h[k];
      }
    }
  }

  lemma RedactHTTPHeadersIdempotent(h: Header)
    ensures RedactHTTPHeaders(RedactHTTPHeaders(h)) == RedactHTTPHeaders(h)
  {
    var r := RedactHTTPHeaders(h);
    forall k | k in r && !MaskedHeader(k)
      ensures forall i :: 0 <= i < |r[k]| ==> IsPreview(r[k][i])
    {
    }
    assert RedactedHeaders(r);
    RedactHTTPHeadersFixpoint(r);
  }

  /**
   The explicit Authorization comparison adds nothing: a header is masked
   exactly when its name is sensitive or is Cookie in some case.
   */
  lemma AuthorizationCheckRedundant(name: Bytes)
    ensures MaskedHeader(name) <==> IsSensitiveKey(name) || EqualFold(name, "Cookie")
  {
    if EqualFold(name, "Authorization") {
      AuthorizationIsSensitive(name);
    }
  }

  /** A Cookie header, in any spelling, is masked whatever the vocabulary says about it. */
  lemma CookieAlwaysMasked(h: Header, name: Bytes)
    requires name in h && EqualFold(name, "Cookie")
    ensures RedactHTTPHeaders(h)[name] == [Mask]
  {
  }
}

=== FILE: importid.dfy ===
/** The secret resource's import identifier `namespace/key`. */
module ImportId {
  import opened Wrappers
  import opened ByteStrings

  /** The byte offset of the first '/', scanning from the front. */
  function FirstSlash(id: Bytes): (r: Option<nat>)
    ensures r.None? <==> '/' !in id
    ensures r.Some? ==> r.value < |id| && id[r.value] == '/' && '/' !in id[..r.value]
  {
    if |id| == 0 then None
    else if id[0] == '/' then Some(0)
    else
      match FirstSlash(id[1..])
      case Some(i) =>
        assert id[..i + 1] == [id[0]] + id[1..][..i];
        Some(i + 1)
      case None => None
  }

  /** The import split: namespace before the first '/', key after it; both empty when there is none. */
  function SplitImportId(id: Bytes): (r: (Bytes, Bytes))
    ensures '/' in id ==> id == r.0 + "/" + r.1 && '/' !in r.0
    ensures '/' !in id ==> r.0 == [] && r.1 == []
  {
    match FirstSlash(id)
    case Some(i) =>
      assert id == id[..i] + "/" + id[i + 1..];
      (id[..i], id[i + 1..])
    case None => ([], [])
  }

  /** The identifier stored after a create or an update. */
  function FormatId(ns: Bytes, key: Bytes): Bytes {
    ns + "/" + key
  }

  /** A namespace without '/' and any key, even one holding '/', survive the round trip. */
  lemma ImportIdRoundTrip(ns: Bytes, key: Bytes)
    requires '/' !in ns
    ensures SplitImportId(FormatId(ns, key)) == (ns, key)
  {
    var id := FormatId(ns, key);
    assert id[|ns|] == '/';
    var (a, b) := SplitImportId(id);
    assert a == id[..|a|] == ns;
    assert b == id[|a| + 1..] == key;
  }

  /**
   A namespace that holds '/' does not survive: the split happens at its
   first '/', and the rest of the namespace is pushed into the key.
   */
  lemma SlashInNamespaceSplitsEarly(ns: Bytes, key: Bytes, i: nat)
    requires i < |ns| && ns[i] == '/' && '/' !in ns[..i]
    ensures SplitImportId(FormatId(ns, key)) == (ns[..i], ns[i + 1..] + "/" + key)
  {
    ImportIdRoundTrip(ns[..i], ns[i + 1..] + "/" + key);
    assert ns == ns[..i] + "/" + ns[i + 1..];
    assert FormatId(ns, key) == FormatId(ns[..i], ns[i + 1..] + "/" + key);
  }
}

=== FILE: jsonbody.dfy ===
/** The JSON body redactor over a decoded JSON tree. */
module JsonBody {
  import opened Wrappers
  import opened ByteStrings
  import opened Classifier
  import opened Scalar

  /** A decoded JSON document; objects have unique keys, as in a decoded map. */
  datatype Json =
    | JNull
    | JBool(b: bool)
    | JNumber(n: real)
    | JString(s: Bytes)
    | JArray(items: seq<Json>)
    | JObject(fields: map<Bytes, Json>)

  /** A fully redacted tree: sensitive members hold the mask, every string is a preview. */
  predicate JRedacted(v: Json) {
    match v
    case JObject(m) =>
      forall k :: k in m ==> if IsSensitiveKey(k) then m[k] == JString(Mask) else JRedacted(m[k])
    case JArray(a) => forall i :: 0 <= i < |a| ==> JRedacted(a[i])
    case JString(s) => IsPreview(s)
    case _ => true
  }

  /** A plain tree: no sensitive member name at any depth and no string above the preview window. */
  predicate Plain(v: Json) {
    match v
    case JObject(m) => forall k :: k in m ==> !IsSensitiveKey(k) && Plain(m[k])
    case JArray(a) => forall i :: 0 <= i < |a| ==> Plain(a[i])
    case JString(s) => |s| <= MaxPreviewLen
    case _ => true
  }

  function RedactJSONNode(v: Json): (r: Json)
    ensures JRedacted(r)
    ensures v.JObject? ==> r.JObject? && r.fields.Keys == v.fields.Keys
    ensures v.JObject? ==> forall k :: k in v.fields && IsSensitiveKey(k) ==> r.fields[k] == JString(Mask)
    ensures v.JObject? ==> forall k :: k in v.fields && !IsSensitiveKey(k) ==> r.fields[k] == RedactJSONNode(v.fields[k])
    ensures v.JArray? ==> r.JArray? && |r.items| == |v.items|
    ensures v.JArray? ==> forall i :: 0 <= i < |v.items| ==> r.items[i] == RedactJSONNode(v.items[i])
    ensures v.JString? ==> r.JString? && r.s == TruncatePreview(v.s)
    ensures v.JNull? || v.JBool? || v.JNumber? ==> r == v
  {
    match v
    case JObject(m) =>
      JObject(map k | k in m :: if IsSensitiveKey(k) then JString(Mask) else RedactJSONNode(m[k]))
    case JArray(a) =>
      JArray(seq(|a|, i requires 0 <= i < |a| => RedactJSONNode(a[i])))
    case JString(s) => JString(TruncatePreview(s))
    case _ => v
  }

  /** A tree is left alone by the walk exactly when it is already fully redacted. */
  lemma {:induction false} RedactJSONNodeFixpoint(v: Json)
    ensures RedactJSONNode(v) == v <==> JRedacted(v)
  {
    if JRedacted(v) {
      match v
      case JObject(m) =>
        forall k | k in m && !IsSensitiveKey(k)
          ensures RedactJSONNode(m[k]) == m[k]
        {
          RedactJSONNodeFixpoint(m[k]);
        }
      case JArray(a) =>
        forall i | 0 <= i < |a|
          ensures RedactJSONNode(a[i]) == a[i]
        {
          RedactJSONNodeFixpoint(a[i]);
        }
      case JString(s) =>
        TruncatePreviewFixpoint(s);
      case _ =>
    }
  }

  lemma RedactJSONNodeIdempotent(v: Json)
    ensures RedactJSONNode(RedactJSONNode(v)) == RedactJSONNode(v)
  {
    RedactJSONNodeFixpoint(RedactJSONNode(v));
  }

  /** A plain document comes back deep-equal to itself. */
  lemma {:induction false} PlainUnchanged(v: Json)
    requires Plain(v)
    ensures RedactJSONNode(v) == v
  {
    PlainIsRedacted(v);
    RedactJSONNodeFixpoint(v);
  }

  lemma {:induction false} PlainIsRedacted(v: Json)
    requires Plain(v)
    ensures JRedacted(v)
  {
    match v
    case JObject(m) =>
      forall k | k in m
        ensures JRedacted(m[k])
      {
        PlainIsRedacted(m[k]);
      }
    case JArray(a) =>
      forall i | 0 <= i < |a|
        ensures JRedacted(a[i])
      {
        PlainIsRedacted(a[i]);
      }
    case _ =>
  }

  /**
   An `authorization` member, in any case, loses its whole value to the
   mask, so a bearer token under it never reaches the encoder.
   */
  lemma AuthorizationMemberMasked(m: map<Bytes, Json>, name: Bytes)
    requires name in m && EqualFold(name, "Authorization")
    ensures RedactJSONNode(JObject(m)).fields[name] == JString(Mask)
  {
    AuthorizationIsSensitive(name);
  }

  /**
   The adapter. `unmarshal` is the JSON decoder, `None` on malformed input;
   `marshal` the encoder, `None` when encoding fails. Both failures return
   the input bytes unchanged.
   */
  function RedactJSONBytes(b: Bytes, unmarshal: Bytes -> Option<Json>, marshal: Json -> Option<Bytes>): (r: Bytes)
    ensures unmarshal(b).None? ==> r == b
    ensures unmarshal(b).Some? && marshal(RedactJSONNode(unmarshal(b).value)).None? ==> r == b
    ensures unmarshal(b).Some? && marshal(RedactJSONNode(unmarshal(b).value)).Some? ==>
              r == marshal(RedactJSONNode(unmarshal(b).value)).value
    ensures r == b || exists j :: JRedacted(j) && marshal(j) == Some(r)
  {
    match unmarshal(b)
    case None => b
    case Some(v) =>
      var redacted := RedactJSONNode(v);
      match marshal(redacted)
      case None => b
      case Some(out) => out
  }

  /**
   With a codec whose decoder reads back whatever the encoder wrote, running
   the adapter on its own output changes nothing.
   */
  lemma RedactJSONBytesIdempotent(b: Bytes, unmarshal: Bytes -> Option<Json>, marshal: Json -> Option<Bytes>)
    requires forall j: Json, out: Bytes :: marshal(j) == Some(out) ==> unmarshal(out) == Some(j)
    ensures RedactJSONBytes(RedactJSONBytes(b, unmarshal, marshal), unmarshal, marshal)
         == RedactJSONBytes(b, unmarshal, marshal)
  {
    match unmarshal(b)
    case None =>
    case Some(v) =>
      var redacted := RedactJSONNode(v);
      match marshal(redacted)
      case None =>
      case Some(out) =>
        assert unmarshal(out) == Some(redacted);
        RedactJSONNodeIdempotent(v);
  }
}

=== FILE: pem.dfy ===
/**
 The PEM block redactor. The block pattern is
   `-----BEGIN ` tag `-----` body `-----END ` tag `-----`
 where a tag is a non-empty run of bytes other than '-', and the body is
 at least one byte, as short as possible. Matches are found leftmost first
 and do not overlap; each one is replaced by the mask. The END tag need
 not repeat the BEGIN tag.
 */
module Pem {
  import opened Wrappers
  import opened ByteStrings
  import opened Scalar

  const BeginMarker: Bytes := "-----BEGIN "
  const EndMarker: Bytes := "-----END "
  const Dashes: Bytes := "-----"

  predicate DashFree(t: Bytes) {
    '-' !in t
  }

  /** The length of the leading run of bytes other than '-': a greedy tag. */
  function TagLen(t: Bytes): (n: nat)
    ensures n <= |t|
    ensures DashFree(t[..n])
    ensures n == |t| || t[n] == '-'
  {
    if |t| == 0 || t[0] == '-' then 0 else 1 + TagLen(t[1..])
  }

  /** An armor line `marker tag-----` at the start of `t`: its length in bytes. */
  function Armor(t: Bytes, marker: Bytes): (r: Option<nat>)
    ensures r.Some? ==> |marker| < r.value <= |t| && OccursAt(t, marker, 0)
  {
    if !OccursAt(t, marker, 0) then None
    else
      var n := TagLen(t[|marker|..]);
      if n > 0 && OccursAt(t[|marker| + n..], Dashes, 0) then Some(|marker| + n + |Dashes|)
      else None
  }

  /**
   What an armor line is made of: the marker, a non-empty tag with no '-',
   and five dashes. `ArmorOf` is the converse.
   */
  lemma ArmorShape(t: Bytes, marker: Bytes)
    requires Armor(t, marker).Some?
    ensures var e := Armor(t, marker).value;
      && |marker| + |Dashes| < e <= |t|
      && t[..|marker|] == marker
      && DashFree(t[|marker|..e - |Dashes|])
      && t[e - |Dashes|..e] == Dashes
  {
    var n := TagLen(t[|marker|..]);
    assert t[|marker|..|marker| + n] == t[|marker|..][..n];
    assert t[|marker| + n..|marker| + n + |Dashes|] == t[|marker| + n..][..|Dashes|];
  }

  /** An END line starts at offset `j` of `t` and ends at offset `e`. */
  predicate EndLineAt(t: Bytes, j: nat, e: nat) {
    j < |t| && Armor(t[j..], EndMarker).Some? && j + Armor(t[j..], EndMarker).value == e
  }

  /** No END line starts at any offset of `t` in `lo..hi`. */
  predicate NoEndLineIn(t: Bytes, lo: nat, hi: nat) {
    forall k :: lo <= k < hi && k < |t| ==> Armor(t[k..], EndMarker).None?
  }

  /**
   Dropping `d` leading bytes moves every END line `d` bytes to the left:
   the one at `j..e` in the rest is the one at `j2..e2` in `t`.

   The shifted offsets `j2`, `e2` (and `lo2`, `hi2` below) are parameters
   tied to `d + j` and so on by the precondition, rather than sums written
   into the postcondition: each caller passes the very terms its own goal
   mentions, so the solver matches the goal without arithmetic rewriting.
   */
  lemma EndLineShift(t: Bytes, d: nat, j: nat, e: nat, j2: nat, e2: nat)
    requires d <= |t| && j2 == d + j && e2 == d + e
    ensures EndLineAt(t[d..], j, e) <==> EndLineAt(t, j2, e2)
  {
    if j < |t| - d {
      assert t[d..][j..] == t[j2..];
    }
  }

  /** The same shift for a stretch of offsets holding no END line. */
  lemma NoEndLineShift(t: Bytes, d: nat, lo: nat, hi: nat, lo2: nat, hi2: nat)
    requires d <= |t| && lo2 == d + lo && hi2 == d + hi
    ensures NoEndLineIn(t[d..], lo, hi) <==> NoEndLineIn(t, lo2, hi2)
  {
    forall k | lo <= k < hi && k < |t| - d
      ensures t[d..][k..] == t[d + k..]
    {
    }
    if NoEndLineIn(t[d..], lo, hi) {
      forall k | lo2 <= k < hi2 && k < |t|
        ensures Armor(t[k..], EndMarker).None?
      {
        assert t[d..][k - d..] == t[k..];
      }
    }
  }

  /** The earliest END line found after dropping `d` bytes is the earliest one from offset `d` on. */
  lemma EarliestEndShift(t: Bytes, d: nat, k: nat, m: nat, j: nat, e: nat)
    requires d <= |t| && j == d + k && e == d + m
    requires EndLineAt(t[d..], k, m) && NoEndLineIn(t[d..], 0, k)
    ensures EndLineAt(t, j, e) && NoEndLineIn(t, d, j)
  {
    EndLineShift(t, d, k, m, j, e);
    NoEndLineShift(t, d, 0, k, d, j);
  }

  /** The earliest END line in `t`: the offset just past it. */
  function FindEnd(t: Bytes): (r: Option<nat>)
    ensures r.Some? ==> 0 < r.value <= |t|
    decreases |t|
  {
    if |t| == 0 then None
    else match Armor(t, EndMarker)
      case Some(n) => Some(n)
      case None =>
        match FindEnd(t[1..])
        case Some(m) => Some(m + 1)
        case None => None
  }

  /** A block starting at the front of `t`, with the shortest body: its length. */
  function MatchBlock(t: Bytes): (r: Option<nat>)
    ensures r.Some? ==> 0 < r.value <= |t| && OccursAt(t, BeginMarker, 0)
  {
    match Armor(t, BeginMarker)
    case None => None
    case Some(h) =>
      if h >= |t| then None
      else
        match FindEnd(t[h + 1..])
        case Some(m) => Some(h + 1 + m)
        case None => None
  }

  /** An END line at the front is the earliest one. */
  lemma EndLineAtFront(t: Bytes, n: nat)
    requires Armor(t, EndMarker) == Some(n)
    ensures EndLineAt(t, 0, n) && NoEndLineIn(t, 0, 0) && !NoEndLineIn(t, 0, |t|)
  {
    assert t[0..] == t;
  }

  /** Past a front that starts no END line, the earliest one is the earliest in the tail. */
  lemma EndLinePastFront(t: Bytes, k: nat, m: nat, j: nat, e: nat)
    requires 0 < |t| && Armor(t, EndMarker).None? && j == k + 1 && e == m + 1
    requires EndLineAt(t[1..], k, m) && NoEndLineIn(t[1..], 0, k)
    ensures EndLineAt(t, j, e) && NoEndLineIn(t, 0, j)
  {
    EarliestEndShift(t, 1, k, m, j, e);
    assert t[0..] == t;
  }

  /** With no END line at the front, `t` has none exactly when its tail has none. */
  lemma NoEndLinePastFront(t: Bytes)
    requires 0 < |t| && Armor(t, EndMarker).None?
    ensures NoEndLineIn(t, 0, |t|) <==> NoEndLineIn(t[1..], 0, |t| - 1)
  {
    NoEndLineShift(t, 1, 0, |t| - 1, 1, |t|);
    assert t[0..] == t;
  }

  /**
   The search finds an END line exactly when there is one, and the one it
   finds is the earliest: it starts at `j` and no END line starts before it.
   */
  lemma {:induction false} FindEndEarliest(t: Bytes) returns (j: nat)
    ensures FindEnd(t).None? <==> NoEndLineIn(t, 0, |t|)
    ensures FindEnd(t).Some? ==> EndLineAt(t, j, FindEnd(t).value) && NoEndLineIn(t, 0, j)
    decreases |t|
  {
    j := 0;
    if |t| > 0 {
      match Armor(t, EndMarker)
      case Some(n) =>
        EndLineAtFront(t, n);
      case None =>
        var j' := FindEndEarliest(t[1..]);
        NoEndLinePastFront(t);
        match FindEnd(t[1..])
        case Some(m) =>
          j := j' + 1;
          EndLinePastFront(t, j', m, j, FindEnd(t).value);
        case None =>
    }
  }

  /** Where the END line that the search found starts. */
  lemma EarliestEndLine(t: Bytes, e: nat) returns (j: nat)
    requires FindEnd(t) == Some(e)
    ensures EndLineAt(t, j, e) && NoEndLineIn(t, 0, j)
  {
    j := FindEndEarliest(t);
  }

  /** Without a BEGIN line, or with nothing after it, no block starts here. */
  lemma MatchBlockNoBody(t: Bytes)
    requires Armor(t, BeginMarker).None? || Armor(t, BeginMarker).value >= |t|
    ensures MatchBlock(t).None?
  {
  }

  /** After a BEGIN line, no block starts here when the body search finds no END line. */
  lemma MatchBlockNoEnd(t: Bytes, h: nat)
    requires Armor(t, BeginMarker) == Some(h) && h < |t| && FindEnd(t[h + 1..]).None?
    ensures MatchBlock(t).None?
  {
  }

  /** A block found at the front starts with a BEGIN line and ends where the body search stops. */
  lemma MatchBlockSome(t: Bytes)
    requires MatchBlock(t).Some?
    ensures Armor(t, BeginMarker).Some? && Armor(t, BeginMarker).value < |t|
    ensures var h := Armor(t, BeginMarker).value;
      FindEnd(t[h + 1..]).Some? && MatchBlock(t).value == h + 1 + FindEnd(t[h + 1..]).value
  {
  }

  /** The block ends with the END line the body search finds, shifted past the BEGIN line. */
  lemma MatchBlockEnds(t: Bytes, h: nat, k: nat, m: nat, e: nat) returns (j: nat)
    requires Armor(t, BeginMarker) == Some(h) && h < |t|
    requires EndLineAt(t[h + 1..], k, m) && NoEndLineIn(t[h + 1..], 0, k)
    requires e == h + 1 + m
    ensures h < j && EndLineAt(t, j, e) && NoEndLineIn(t, h + 1, j)
  {
    j := h + 1 + k;
    EarliestEndShift(t, h + 1, k, m, j, e);
  }

  /**
   A block is found exactly when a BEGIN line is followed, after at least
   one body byte, by an END line.
   */
  lemma MatchBlockFound(t: Bytes)
    ensures MatchBlock(t).None? <==>
      Armor(t, BeginMarker).None? || NoEndLineIn(t, Armor(t, BeginMarker).value + 1, |t|)
  {
    if Armor(t, BeginMarker).None? || Armor(t, BeginMarker).value >= |t| {
      MatchBlockNoBody(t);
    } else {
      var h := Armor(t, BeginMarker).value;
      var u := t[h + 1..];
      var k := FindEndEarliest(u);
      NoEndLineShift(t, h + 1, 0, |u|, h + 1, |t|);
      if FindEnd(u).Some? {
        MatchBlockOf(t, h, u, FindEnd(u).value, h + 1 + FindEnd(u).value);
      } else {
        MatchBlockNoEnd(t, h);
      }
    }
  }

  /**
   A block found at the front of `t` and ending at `e` starts with a BEGIN
   line and ends with the END line starting at `j`. No END line starts
   between the first body byte and `j`, so the body is the shortest one.
   */
  lemma MatchBlockShortest(t: Bytes, e: nat) returns (j: nat)
    requires MatchBlock(t) == Some(e)
    ensures Armor(t, BeginMarker).Some?
    ensures Armor(t, BeginMarker).value < j
    ensures EndLineAt(t, j, e) && NoEndLineIn(t, Armor(t, BeginMarker).value + 1, j)
  {
    MatchBlockSome(t);
    var h := Armor(t, BeginMarker).value;
    var u := t[h + 1..];
    var m := FindEnd(u).value;
    var k := EarliestEndLine(u, m);
    j := MatchBlockEnds(t, h, k, m, e);
  }

  function RedactPEM(s: Bytes): (r: Bytes)
    ensures !Occurs(s, BeginMarker) ==> r == s
    decreases |s|
  {
    if |s| == 0 then []
    else
      match MatchBlock(s)
      case Some(n) =>
        assert OccursAt(s, BeginMarker, 0);
        Mask + RedactPEM(s[n..])
      case None =>
        OccursInTail(s, BeginMarker);
        var rest := RedactPEM(s[1..]);
        assert !Occurs(s, BeginMarker) ==> [s[0]] + rest == s;
        [s[0]] + rest
  }

  lemma {:induction false} TagLenOf(tag: Bytes, rest: Bytes)
    requires DashFree(tag)
    requires |rest| == 0 || rest[0] == '-'
    ensures TagLen(tag + rest) == |tag|
  {
    if |tag| > 0 {
      assert (tag + rest)[1..] == tag[1..] + rest;
      TagLenOf(tag[1..], rest);
    } else {
      assert tag + rest == rest;
    }
  }

  lemma {:induction false} ArmorOf(marker: Bytes, tag: Bytes, rest: Bytes)
    requires |tag| > 0 && DashFree(tag)
    ensures Armor(marker + tag + Dashes + rest, marker) == Some(|marker| + |tag| + |Dashes|)
  {
    var t := marker + tag + Dashes + rest;
    assert t[..|marker|] == marker;
    assert t[|marker|..] == tag + (Dashes + rest);
    TagLenOf(tag, Dashes + rest);
    assert t[|marker| + |tag|..] == Dashes + rest;
  }

  /** Positions holding no '-' cannot start an END line, so the search walks past them. */
  lemma {:induction false} FindEndSkips(x: Bytes, y: Bytes)
    requires DashFree(x)
    ensures FindEnd(x + y) == match FindEnd(y) case Some(m) => Some(|x| + m) case None => None
  {
    if |x| > 0 {
      var t := x + y;
      assert t[0] == x[0];
      assert Armor(t, EndMarker) == None by {
        assert EndMarker[0] == '-';
      }
      assert t[1..] == x[1..] + y;
      FindEndSkips(x[1..], y);
    } else {
      assert x + y == y;
    }
  }

  /** A complete block with the given tags and body. */
  function Block(tag: Bytes, body: Bytes, endTag: Bytes): Bytes {
    BeginMarker + tag + Dashes + body + EndMarker + endTag + Dashes
  }

  /** The length of a block is the sum of its parts. */
  lemma BlockLength(tag: Bytes, body: Bytes, endTag: Bytes)
    ensures |Block(tag, body, endTag)|
         == |BeginMarker| + |tag| + |Dashes| + |body| + |EndMarker| + |endTag| + |Dashes|
  {
  }

  /** Dropping the first byte keeps a text free of '-'. */
  lemma DashFreeTail(s: Bytes)
    requires DashFree(s) && |s| > 0
    ensures DashFree(s[1..])
  {
    assert forall c :: c in s[1..] ==> c in s;
  }

  /** A byte at which no BEGIN marker starts can start no block, so it is copied and the scan moves on. */
  lemma NonBeginKept(t: Bytes)
    requires |t| > 0 && !OccursAt(t, BeginMarker, 0)
    ensures RedactPEM(t) == [t[0]] + RedactPEM(t[1..])
  {
  }

  /** No BEGIN marker starts at any offset inside `prose`, in the text `prose + rest`. */
  predicate NoBeginWithin(prose: Bytes, rest: Bytes) {
    forall i :: 0 <= i < |prose| ==> !OccursAt(prose + rest, BeginMarker, i)
  }

  /** An occurrence one byte further on is an occurrence in the tail. */
  lemma OccursAtShift(t: Bytes, sub: Bytes, i: nat)
    requires |t| > 0
    ensures OccursAt(t, sub, i + 1) <==> OccursAt(t[1..], sub, i)
  {
    if i + 1 + |sub| <= |t| {
      assert t[1..][i..i + |sub|] == t[i + 1..i + 1 + |sub|];
    }
  }

  lemma NoBeginWithinTail(prose: Bytes, rest: Bytes)
    requires |prose| > 0 && NoBeginWithin(prose, rest)
    ensures NoBeginWithin(prose[1..], rest)
  {
    ConsSplit(prose, rest, []);
    forall i | 0 <= i < |prose| - 1
      ensures !OccursAt(prose[1..] + rest, BeginMarker, i)
    {
      OccursAtShift(prose + rest, BeginMarker, i);
    }
  }

  /**
   Text inside which no BEGIN marker starts passes through verbatim, and
   the scan carries on with the rest as if the text were not there.
   */
  lemma {:induction false} PrefixKept(prose: Bytes, rest: Bytes)
    requires NoBeginWithin(prose, rest)
    ensures RedactPEM(prose + rest) == prose + RedactPEM(rest)
  {
    if |prose| > 0 {
      NoBeginWithinTail(prose, rest);
      PrefixKept(prose[1..], rest);
      CopiedByte(prose, rest, RedactPEM(rest));
    } else {
      assert prose + rest == rest;
    }
  }

  /** Text with no '-' can start no block, so it passes through verbatim. */
  lemma DashFreePrefixKept(prose: Bytes, rest: Bytes)
    requires DashFree(prose)
    ensures RedactPEM(prose + rest) == prose + RedactPEM(rest)
  {
    forall i | 0 <= i < |prose|
      ensures !OccursAt(prose + rest, BeginMarker, i)
    {
      assert prose[i] in prose;
      if i + |BeginMarker| <= |prose + rest| {
        assert (prose + rest)[i..i + |BeginMarker|][0] == prose[i] != BeginMarker[0];
      }
    }
    PrefixKept(prose, rest);
  }

  /**
   `-----BEGIN ` overlaps no shifted copy of itself: its one space is its
   last byte. So when `rest` starts with a BEGIN marker and `prose` holds
   none, no marker starts inside `prose` in `prose + rest`.
   */
  lemma NoBeginStraddles(prose: Bytes, rest: Bytes)
    requires !Occurs(prose, BeginMarker) && OccursAt(rest, BeginMarker, 0)
    ensures NoBeginWithin(prose, rest)
  {
    var t := prose + rest;
    forall i | 0 <= i < |prose|
      ensures !OccursAt(t, BeginMarker, i)
    {
      if i + |BeginMarker| <= |prose| {
        assert prose[i..i + |BeginMarker|] == t[i..i + |BeginMarker|];
        assert !OccursAt(prose, BeginMarker, i);
      } else if i + |BeginMarker| <= |t| {
        var k := i + 10 - |prose|;
        assert t[i..i + |BeginMarker|][10] == t[i + 10] == rest[k] == rest[0..|BeginMarker|][k];
        assert BeginMarker[k] != ' ' == BeginMarker[10];
      }
    }
  }

  /** One byte at which no BEGIN marker starts, in front of text the scan copies, is copied too. */
  lemma CopiedByte(prose: Bytes, rest: Bytes, r: Bytes)
    requires |prose| > 0 && !OccursAt(prose + rest, BeginMarker, 0)
    requires RedactPEM(prose[1..] + rest) == prose[1..] + r
    ensures RedactPEM(prose + rest) == prose + r
  {
    ConsSplit(prose, rest, r);
    NonBeginKept(prose + rest);
  }

  /** Splitting off the first byte of the prose, before and after the scan. */
  lemma ConsSplit(prose: Bytes, rest: Bytes, r: Bytes)
    requires |prose| > 0
    ensures (prose + rest)[0] == prose[0]
    ensures (prose + rest)[1..] == prose[1..] + rest
    ensures [prose[0]] + (prose[1..] + r) == prose + r
  {
    assert [prose[0]] + prose[1..] == prose;
  }

  /** After a body with no '-', the search stops at the first END line. */
  lemma {:induction false} BodyThenEnd(body: Bytes, endTag: Bytes, after: Bytes)
    requires DashFree(body) && DashFree(endTag) && |endTag| > 0
    ensures FindEnd(body + (EndMarker + endTag + Dashes + after))
         == Some(|body| + |EndMarker| + |endTag| + |Dashes|)
  {
    var tail := EndMarker + endTag + Dashes + after;
    ArmorOf(EndMarker, endTag, after);
    assert FindEnd(tail) == Some(|EndMarker| + |endTag| + |Dashes|);
    FindEndSkips(body, tail);
  }

  /** The BEGIN line of a block is recognised, and the body search starts one byte into the body. */
  lemma {:induction false} BeginLineOf(tag: Bytes, body: Bytes, endTag: Bytes, after: Bytes, t: Bytes, h: nat, u: Bytes)
    requires DashFree(tag) && |tag| > 0 && |body| > 0
    requires t == Block(tag, body, endTag) + after && h == |BeginMarker| + |tag| + |Dashes|
    requires u == body[1..] + (EndMarker + endTag + Dashes + after)
    ensures Armor(t, BeginMarker) == Some(h) && h < |t| && t[h + 1..] == u
  {
    var tail := EndMarker + endTag + Dashes + after;
    assert t == BeginMarker + tag + Dashes + (body + tail);
    ArmorOf(BeginMarker, tag, body + tail);
  }

  /** A block whose tags and body hold no '-' is matched whole at the front, whatever follows it. */
  lemma {:induction false} BlockMatches(tag: Bytes, body: Bytes, endTag: Bytes, after: Bytes)
    requires DashFree(tag) && DashFree(body) && DashFree(endTag)
    requires |tag| > 0 && |body| > 0 && |endTag| > 0
    ensures MatchBlock(Block(tag, body, endTag) + after) == Some(|Block(tag, body, endTag)|)
  {
    var t := Block(tag, body, endTag) + after;
    var h := |BeginMarker| + |tag| + |Dashes|;
    var u := body[1..] + (EndMarker + endTag + Dashes + after);
    BeginLineOf(tag, body, endTag, after, t, h, u);
    DashFreeTail(body);
    BodyThenEnd(body[1..], endTag, after);
    var m := |body[1..]| + |EndMarker| + |endTag| + |Dashes|;
    BlockLength(tag, body, endTag);
    MatchBlockOf(t, h, u, m, |Block(tag, body, endTag)|);
  }

  /** A BEGIN line followed, one body byte on, by a successful search gives a block ending at `e`. */
  lemma MatchBlockOf(t: Bytes, h: nat, u: Bytes, m: nat, e: nat)
    requires Armor(t, BeginMarker) == Some(h) && h < |t| && t[h + 1..] == u
    requires FindEnd(u) == Some(m) && e == h + 1 + m
    ensures MatchBlock(t) == Some(e)
  {
    MatchBlockAfterBegin(t, h, m);
  }

  /** One step of `MatchBlock`: after the BEGIN line at `h`, the block ends where the search stops. */
  lemma MatchBlockAfterBegin(t: Bytes, h: nat, m: nat)
    requires Armor(t, BeginMarker) == Some(h) && h < |t|
    requires FindEnd(t[h + 1..]) == Some(m)
    ensures MatchBlock(t) == Some(h + 1 + m)
  {
    var u := t[h + 1..];
    assert FindEnd(u) == Some(m);
  }

  /** A block at the front is replaced by the mask and the scan resumes right after it. */
  lemma {:induction false} BlockMasked(tag: Bytes, body: Bytes, endTag: Bytes, after: Bytes)
    requires DashFree(tag) && DashFree(body) && DashFree(endTag)
    requires |tag| > 0 && |body| > 0 && |endTag| > 0
    ensures RedactPEM(Block(tag, body, endTag) + after) == Mask + RedactPEM(after)
  {
    var block := Block(tag, body, endTag);
    BlockMatches(tag, body, endTag, after);
    assert (block + after)[|block|..] == after;
  }

  /**
   A complete block whose tags and body hold no '-' (base64 never does),
   between prose with no BEGIN marker before it and text with no BEGIN
   marker after it, is replaced by the mask and nothing else changes.
   */
  lemma {:induction false} BlockReplaced(prose: Bytes, tag: Bytes, body: Bytes, endTag: Bytes, after: Bytes)
    requires !Occurs(prose, BeginMarker) && DashFree(tag) && DashFree(body) && DashFree(endTag)
    requires |tag| > 0 && |body| > 0 && |endTag| > 0
    requires !Occurs(after, BeginMarker)
    ensures RedactPEM(prose + Block(tag, body, endTag) + after) == prose + Mask + after
  {
    var block := Block(tag, body, endTag);
    BlockStartsWithBegin(tag, body, endTag, after);
    NoBeginStraddles(prose, block + after);
    PrefixKept(prose, block + after);
    BlockMasked(tag, body, endTag, after);
    Regroup(prose, block, after);
    Regroup(prose, Mask, after);
  }

  /** A block, and so anything that starts with one, starts with a BEGIN marker. */
  lemma BlockStartsWithBegin(tag: Bytes, body: Bytes, endTag: Bytes, after: Bytes)
    ensures OccursAt(Block(tag, body, endTag) + after, BeginMarker, 0)
  {
    assert Block(tag, body, endTag) + after
        == BeginMarker + (tag + Dashes + body + EndMarker + endTag + Dashes + after);
  }

  /**
   Concatenation regrouped. It is a lemma of its own so that the proof of
   `BlockReplaced` can regroup without the solver also unfolding the scanner.
   */
  lemma Regroup(a: Bytes, b: Bytes, c: Bytes)
    ensures a + b + c == a + (b + c)
  {
  }
}

=== FILE: scalar.dfy ===
/** The scalar redactor's building blocks: the mask and the preview window. */
module Scalar {
  import opened ByteStrings

  /** The fixed sentinel written in place of every sensitive value. */
  const Mask: Bytes := "****"

  /** Strings up to this many bytes are shown whole. */
  const MaxPreviewLen: nat := 16

  /** Bytes kept at each end of a longer string. */
  const Half: nat := MaxPreviewLen / 2

  /** U+2026 HORIZONTAL ELLIPSIS, which is three bytes in UTF-8. */
  const Ellipsis: Bytes := ['\U{E2}', '\U{80}', '\U{A6}']

  /** The length of every truncated preview: head, ellipsis, tail. */
  const PreviewLen: nat := 2 * Half + |Ellipsis|

  /** The strings a preview can produce: short ones, or head + ellipsis + tail. */
  predicate IsPreview(s: Bytes) {
    |s| <= MaxPreviewLen || (|s| == PreviewLen && s[Half..Half + |Ellipsis|] == Ellipsis)
  }

  function TruncatePreview(s: Bytes): (r: Bytes)
    ensures |s| <= MaxPreviewLen ==> r == s
    ensures |s| > MaxPreviewLen ==>
      && |r| == PreviewLen
      && r[..Half] == s[..Half]
      && r[Half..Half + |Ellipsis|] == Ellipsis
      && r[Half + |Ellipsis|..] == s[|s| - Half..]
    ensures IsPreview(r)
  {
    if |s| <= MaxPreviewLen then s
    else s[..Half] + Ellipsis + s[|s| - Half..]
  }

  /** A string is left alone by the preview exactly when it already is a preview. */
  lemma TruncatePreviewFixpoint(s: Bytes)
    ensures TruncatePreview(s) == s <==> IsPreview(s)
  {
    if IsPreview(s) && |s| > MaxPreviewLen {
      assert s == s[..Half] + s[Half..Half + |Ellipsis|] + s[Half + |Ellipsis|..];
    }
  }

  lemma TruncatePreviewIdempotent(s: Bytes)
    ensures TruncatePreview(TruncatePreview(s)) == TruncatePreview(s)
  {
    TruncatePreviewFixpoint(TruncatePreview(s));
  }

  /** Counted in bytes, a preview is shorter than its input only when the input exceeds 19 bytes. */
  lemma TruncatePreviewShortens(s: Bytes)
    ensures |TruncatePreview(s)| < |s| <==> |s| > PreviewLen
  {
  }

  /** The mask is itself a preview, so previewing it changes nothing. */
  lemma MaskIsPreview()
    ensures IsPreview(Mask) && TruncatePreview(Mask) == Mask
  {
  }
}

=== FILE: urlquery.dfy ===
/** The URL query redactor. */
module UrlQuery {
  import opened Wrappers
  import opened ByteStrings
  import opened Classifier
  import opened Scalar

  /** A parsed query: parameter name to its values, in order. */
  type Query = map<Bytes, seq<Bytes>>

  /**
   A parsed URL: every component other than the query (scheme, host, path,
   fragment, ...) is kept as `rest`, which the redactor never touches.
   */
  datatype Url = Url(rest: Bytes, query: Query)

  /** The first value of a parameter, or the empty string when it has none. */
  function First(vals: seq<Bytes>): Bytes {
    if |vals| == 0 then [] else vals[0]
  }

  /** Whether `s` equals one of `list` up to ASCII case, scanning from the front. */
  function ContainsFold(list: seq<Bytes>, s: Bytes): (r: bool)
    ensures r <==> exists i :: 0 <= i < |list| && EqualFold(list[i], s)
  {
    if |list| == 0 then false
    else if EqualFold(list[0], s) then true
    else
      assert forall i :: 0 < i < |list| ==> list[i] == list[1..][i - 1];
      ContainsFold(list[1..], s)
  }

  predicate MaskedParam(name: Bytes, extra: seq<Bytes>) {
    IsSensitiveKey(name) || ContainsFold(extra, name)
  }

  /** The query rewrite: every parameter keeps its name and ends up with exactly one value. */
  function RedactQuery(q: Query, extra: seq<Bytes>): (r: Query)
    ensures r.Keys == q.Keys
    ensures forall k :: k in r ==> |r[k]| == 1
    ensures forall k :: k in q && MaskedParam(k, extra) ==> r[k] == [Mask]
    ensures forall k :: k in q && !MaskedParam(k, extra) ==> r[k] == [TruncatePreview(First(q[k]))]
  {
    map k | k in q :: if MaskedParam(k, extra) then [Mask] else [TruncatePreview(First(q[k]))]
  }

  /**
   The adapter. `parse` is the URL parser together with its query parser,
   `None` when the URL does not parse; `render` re-encodes the URL.
   */
  function RedactURLQuery(raw: Bytes, extra: seq<Bytes>, parse: Bytes -> Option<Url>, render: Url -> Bytes): (r: Bytes)
    ensures parse(raw).None? ==> r == raw
    ensures parse(raw).Some? ==>
      r == render(Url(parse(raw).value.rest, RedactQuery(parse(raw).value.query, extra)))
  {
    match parse(raw)
    case None => raw
    case Some(u) => render(u.(query := RedactQuery(u.query, extra)))
  }

  /** Redacting a redacted query again changes nothing. */
  lemma RedactQueryIdempotent(q: Query, extra: seq<Bytes>)
    ensures RedactQuery(RedactQuery(q, extra), extra) == RedactQuery(q, extra)
  {
    var r := RedactQuery(q, extra);
    forall k | k in q && !MaskedParam(k, extra)
      ensures RedactQuery(r, extra)[k] == r[k]
    {
      TruncatePreviewIdempotent(First(q[k]));
    }
  }

  /** A query is left alone exactly when each parameter holds one value that is the mask or a preview. */
  lemma RedactQueryFixpoint(q: Query, extra: seq<Bytes>)
    ensures RedactQuery(q, extra) == q <==>
      forall k :: k in q ==>
        |q[k]| == 1 && (if MaskedParam(k, extra) then q[k][0] == Mask else IsPreview(q[k][0]))
  {
    var r := RedactQuery(q, extra);
    if forall k :: k in q ==>
        |q[k]| == 1 && (if MaskedParam(k, extra) then q[k][0] == Mask else IsPreview(q[k][0]))
    {
      forall k | k in q
        ensures r[k] == q[k]
      {
        if !MaskedParam(k, extra) {
          TruncatePreviewFixpoint(q[k][0]);
        }
      }
    }
  }

  /**
   A parameter named in the caller's extra list is masked whatever its
   case, even when the vocabulary does not flag it.
   */
  lemma ExtraKeyMasked(q: Query, extra: seq<Bytes>, name: Bytes, i: nat)
    requires name in q && i < |extra| && EqualFold(extra[i], name)
    ensures RedactQuery(q, extra)[name] == [Mask]
  {
  }

  /**
   With a parser that reads back whatever the renderer wrote, running the
   adapter on its own output changes nothing.
   */
  lemma RedactURLQueryIdempotent(raw: Bytes, extra: seq<Bytes>, parse: Bytes -> Option<Url>, render: Url -> Bytes)
    requires forall u: Url :: parse(render(u)) == Some(u)
    ensures RedactURLQuery(RedactURLQuery(raw, extra, parse, render), extra, parse, render)
         == RedactURLQuery(raw, extra, parse, render)
  {
    match parse(raw)
    case None =>
    case Some(u) =>
      var v := u.(query := RedactQuery(u.query, extra));
      assert parse(render(v)) == Some(v);
      RedactQueryIdempotent(u.query, extra);
  }
}

=== FILE: walker.dfy ===
/** The scalar redactor and the structural walker over loosely typed field maps. */
module Walker {
  import opened ByteStrings
  import opened Classifier
  import opened Scalar

  /**
   The dynamic values a field map can hold. `Fields` is a nested
   string-keyed map of dynamic values, `StrMap` a string-to-string map;
   `Opaque` stands for every other dynamic value (numbers, booleans, nil,
   slices, structs), which the walker never looks inside.
   */
  datatype Value =
    | Str(s: Bytes)
    | Fields(fields: map<Bytes, Value>)
    | StrMap(entries: map<Bytes, Bytes>)
    | Opaque(id: nat)

  function SafeValue(key: Bytes, v: Value): (r: Value)
    ensures IsSensitiveKey(key) ==> r == Str(Mask)
    ensures !IsSensitiveKey(key) && v.Str? ==> r == Str(TruncatePreview(v.s))
    ensures !IsSensitiveKey(key) && !v.Str? ==> r == v
  {
    if IsSensitiveKey(key) then Str(Mask)
    else if v.Str? then Str(TruncatePreview(v.s))
    else v
  }

  /** Applying the scalar redactor twice under the same key changes nothing more. */
  lemma SafeValueIdempotent(key: Bytes, v: Value)
    ensures SafeValue(key, SafeValue(key, v)) == SafeValue(key, v)
  {
    if !IsSensitiveKey(key) && v.Str? {
      TruncatePreviewIdempotent(v.s);
    }
  }

  /**
   A walked map: no string-to-string maps are left, every string is the
   mask under a sensitive key and a preview under any other, and every
   value under a sensitive key, other than a nested map, is the mask.
   Other values under other keys are left as they are.
   */
  predicate Redacted(m: map<Bytes, Value>)
    decreases Fields(m), 0
  {
    forall k :: k in m ==> RedactedEntry(k, m[k])
  }

  predicate RedactedEntry(k: Bytes, v: Value)
    decreases v, 1
  {
    match v
    case Fields(inner) => Redacted(inner)
    case StrMap(_) => false
    case Str(s) => if IsSensitiveKey(k) then s == Mask else IsPreview(s)
    case Opaque(_) => !IsSensitiveKey(k)
  }

  /** Same key set at every depth; a string-to-string map becomes a field map with its keys. */
  predicate SameShape(a: map<Bytes, Value>, b: map<Bytes, Value>)
    decreases Fields(a)
  {
    && a.Keys == b.Keys
    && forall k :: k in a ==> match a[k]
      case Fields(inner) => b[k].Fields? && SameShape(inner, b[k].fields)
      case StrMap(entries) => b[k].Fields? && b[k].fields.Keys == entries.Keys
      case _ => !b[k].Fields? && !b[k].StrMap?
  }

  function SafeStrMap(entries: map<Bytes, Bytes>): (r: map<Bytes, Value>)
    ensures r.Keys == entries.Keys
    ensures forall kk :: kk in entries ==> r[kk] == SafeValue(kk, Str(entries[kk]))
    ensures Redacted(r)
  {
    map kk | kk in entries :: SafeValue(kk, Str(entries[kk]))
  }

  function SafeFields(m: map<Bytes, Value>): (out: map<Bytes, Value>)
    ensures SameShape(m, out)
    ensures Redacted(out)
    ensures forall k :: k in m && m[k].Fields? ==> out[k] == Fields(SafeFields(m[k].fields))
    ensures forall k :: k in m && m[k].StrMap? ==> out[k] == Fields(SafeStrMap(m[k].entries))
    ensures forall k :: k in m && !m[k].Fields? && !m[k].StrMap? ==> out[k] == SafeValue(k, m[k])
    decreases Fields(m), 0
  {
    map k | k in m :: SafeEntry(k, m[k])
  }

  /** One entry of the walk: nested maps are walked whatever their key. */
  function SafeEntry(k: Bytes, v: Value): (r: Value)
    ensures RedactedEntry(k, r)
    ensures v.Fields? ==> r.Fields? && SameShape(v.fields, r.fields)
    ensures v.Fields? ==> r == Fields(SafeFields(v.fields))
    ensures v.StrMap? ==> r.Fields? && r.fields.Keys == v.entries.Keys
    ensures v.StrMap? ==> r == Fields(SafeStrMap(v.entries))
    ensures !v.Fields? && !v.StrMap? ==> r == SafeValue(k, v)
    decreases v, 1
  {
    match v
    case Fields(inner) => Fields(SafeFields(inner))
    case StrMap(entries) => Fields(SafeStrMap(entries))
    case _ => SafeValue(k, v)
  }

  /** A field map is left alone by the walker exactly when it is already redacted. */
  lemma {:induction false} SafeFieldsFixpoint(m: map<Bytes, Value>)
    ensures SafeFields(m) == m <==> Redacted(m)
    decreases Fields(m)
  {
    if Redacted(m) {
      forall k | k in m
        ensures SafeEntry(k, m[k]) == m[k]
      {
        assert RedactedEntry(k, m[k]);
        match m[k]
        case Fields(inner) =>
          SafeFieldsFixpoint(inner);
        case Str(s) =>
          if !IsSensitiveKey(k) {
            TruncatePreviewFixpoint(s);
          }
        case Opaque(_) =>
        case StrMap(_) =>
      }
    }
  }

  lemma SafeFieldsIdempotent(m: map<Bytes, Value>)
    ensures SafeFields(SafeFields(m)) == SafeFields(m)
  {
    SafeFieldsFixpoint(SafeFields(m));
  }
}

=== FILE: wrappers.dfy ===
/** The optional value used for the fail-open branches of the parsers. */
module Wrappers {

  datatype Option<+T> = None | Some(value: T)
}
